=== FILE: README.md ===
# rename-via-sheet: the batch renamer, modelled in Dafny

`rename-via-sheet.py` reads a two-column sheet of (source, destination) file
names and renames the files of the working directory in one batch. Sources and
destinations may overlap, as in a swap (a → b, b → a) or a cycle
(a → b → c → a). `renameFiles` therefore works in passes:

1. it allocates one staging file per pair with `tempfile.NamedTemporaryFile`;
2. it moves every source to its staging name with `os.replace`;
3. it moves every staging name to its destination.

With the dry-run flag it only prints one line per pair. Before the batch
reaches `renameFiles`, `getRenameList` keeps only the sheet rows that have
exactly two cells.

The model has six modules:

- `FileSystem` (filesystem.dfy). The directory is a finite map from names to
  byte contents. `os.replace` is `Replace`: the source goes, and the destination
  now holds the source's old contents. `FreshName` allocates a name nobody uses.
- `RenamePlan` (plan.dfy). This says what a batch means independently of the
  passes. `Simultaneous` is the directory after every pair is renamed at once:
  every source is vacated and every destination holds its source's old
  contents. When a destination is listed twice, the last pair naming it wins.
- `Passes` (passes.dfy). This models the two passes as folds of `Replace` calls
  that stop at the first exception. It also defines the invariants `Staged` and
  `Settled` that each pass keeps, and the condition `FreshTemps` that the staging
  names must meet.
- `Phases` (phases.dfy). This holds the proofs about the passes. The main result
  is `RenameWithFreshTemps`: with fresh staging names, the passes get through
  exactly when every source exists and none is listed twice, and then they reach
  `Simultaneous`. Otherwise the first pass raises at the first source that is not
  in place, and the earlier sources are left parked at their staging names.
- `Renamer` (renamer.dfy). `RenameFiles` models `renameFiles` and its printed
  lines. Its two branches are `DryRun` and `RenameBatch`, and the latter runs
  the loops of the real run.
- `SheetRows` (sheet.dfy). This models the row filter of `getRenameList` and how
  the rows become pairs.

`renameFiles` has no branch that skips a pair. A pair whose source equals its
destination is still routed through a staging file, which amounts to no change.
A missing or repeated source is not skipped either: it makes the `os.replace`
at line 101 raise. Lines 78-103 have no branch for either case, so the model
has none: these cases appear as the `Raised` outcome.

## Model

| member | source | states |
|---|---|---|
| FileSystem.Replace | rename-via-sheet.py:101-103 | `os.replace` raises exactly when its source is missing. |
| FileSystem.ReplaceMoves | rename-via-sheet.py:101-103 | After a successful `os.replace`, the destination holds the source's old contents, overwriting whatever was there. The source is gone unless it is the destination, and every other name keeps its contents. A failure reports the missing source. |
| FileSystem.ReplaceSelf | rename-via-sheet.py:100-103 | `os.replace(n, n)` on an existing file changes nothing. Line 103 makes that call when a pair's staging name is its own destination (`Phases.OwnDestinationStagingRuns`). A pair (a, a) goes through a staging file instead (`Phases.SelfRenameRuns`). |
| FileSystem.FreshName | rename-via-sheet.py:98 | The allocated name is not in the given set of used names. |
| RenamePlan.VacatedMeans | rename-via-sheet.py:100-101 | A name is vacated by the first k pairs exactly when one of them has it as its source. |
| RenamePlan.ValidBatchIffAllReady | rename-via-sheet.py:100-101 | Every call of the first pass finds its source in place exactly when every source exists and no source is listed twice. |
| RenamePlan.LastWriter | rename-via-sheet.py:102-103 | Among the first k pairs, this is the last one writing a given name; no later pair writes that name. |
| RenamePlan.WrittenByLastWriter | rename-via-sheet.py:102-103 | The batch writes exactly the names some pair has as its destination, and each holds the old contents of the source of the last pair writing it. |
| RenamePlan.SimultaneousMeaning | rename-via-sheet.py:78-86 | In the intended outcome, each destination holds the old contents of its source (of the last pair naming it, if it is listed twice). A source that is no destination is gone, and every other name is unchanged. |
| RenamePlan.OnlyWriter | rename-via-sheet.py:102-103 | With distinct destinations, each destination is written by its own pair only. |
| RenamePlan.SimultaneousIgnoresOrder | rename-via-sheet.py:78-86 | With distinct destinations, reordering the pairs keeps the destinations distinct and the sources in place, and does not change the intended outcome. |
| RenamePlan.SwapScenario | rename-via-sheet.py:80-86 | In the intended outcome, swapping two files exchanges their contents. |
| RenamePlan.CycleScenario | rename-via-sheet.py:80-86 | In the intended outcome, the cycle a → b → c → a rotates the three contents. |
| RenamePlan.OverwriteScenario | rename-via-sheet.py:81 | In the intended outcome, a destination that exists and is no source holds its source's contents, and the source is gone. |
| RenamePlan.SelfRenameScenario | rename-via-sheet.py:100-103 | In the intended outcome, renaming a file to itself leaves the directory as it was. |
| Passes.Step | rename-via-sheet.py:101 | One call after an earlier call raised does nothing. Otherwise it raises exactly when its source is missing, reporting the call's index and the missing name. |
| Passes.ReplaceEach | rename-via-sheet.py:100-103 | A pass that stops does so at a call made so far whose source is missing, and reports that name. |
| Passes.StoppedRunIsPrefix | rename-via-sheet.py:100-101 | A stopped pass leaves the directory as the calls before the raising one left it. |
| Passes.StoppedRunStays | rename-via-sheet.py:100-103 | Once a call has raised, none of the remaining calls of the pass happens. |
| Phases.StagedAtStart | rename-via-sheet.py:98 | Once the staging files exist, nothing is parked yet, every staging file is empty and every other name is untouched. |
| Phases.StageStep | rename-via-sheet.py:101 | A call of the first pass raises exactly when its source is missing or already moved. Otherwise it parks the source's contents at its staging name. |
| Phases.StagePass | rename-via-sheet.py:100-101 | The first pass gets through exactly when every source is in place in turn. Every source is then gone and staging name i holds the old contents of source i. Otherwise it stops at the first source that is not in place, with the earlier pairs parked. |
| Phases.SettledAtStart | rename-via-sheet.py:100-103 | After a complete first pass, the second pass starts with no destination written. |
| Phases.SettleStep | rename-via-sheet.py:103 | A call of the second pass never raises, since names are flat and a missing source is its only modelled failure. It moves its staging file to its destination, overwriting any file there, and touches nothing else. |
| Phases.SettlePass | rename-via-sheet.py:102-103 | The second pass never raises, since names are flat and a missing source is its only modelled failure. It writes every destination from its staging file. |
| Phases.SettledIsSimultaneous | rename-via-sheet.py:102-103 | The end state of the second pass is the intended outcome, and no staging file is left. |
| Phases.RenameWithFreshTemps | rename-via-sheet.py:87-103 | With fresh staging names, the batch gets through exactly when every source exists and none is listed twice, and it then reaches the intended outcome with no staging file left. Otherwise the first pass raises at the first source not in place, with the earlier pairs parked. Nothing is written to any destination; a destination that is also an earlier source is parked under its staging name. |
| Phases.MissingSourceScenario | rename-via-sheet.py:98-101 | A pair whose source does not exist makes the first call raise. Its empty staging file stays behind. |
| Phases.TempfileCollisionLosesFile | rename-via-sheet.py:98-103 | A staging name that `NamedTemporaryFile` may pick can equal a destination that does not exist yet. In that case a valid batch with distinct destinations loses a file. |
| Phases.OverwriteRuns | rename-via-sheet.py:81-103 | Running both passes on a → b, where b exists and is no source, completes without error: b holds a's contents, a is gone and the staging file is consumed. |
| Phases.SwapRuns | rename-via-sheet.py:80-103 | Running both passes on a swap of two files completes and exchanges their contents, with no staging file left. |
| Phases.CycleRuns | rename-via-sheet.py:80-103 | Running both passes on the cycle a → b → c → a with fresh staging names completes and rotates the three contents, with no staging file left. |
| Phases.OwnDestinationStagingRuns | rename-via-sheet.py:98-103 | When the staging name picked for a pair is its own destination, which does not exist yet, line 103 calls `os.replace(b, b)`. That call changes nothing, and the batch still reaches the intended outcome. |
| Phases.OverwriteMeaning | rename-via-sheet.py:81 | In the intended outcome of a single pair a → b, a is gone and b holds a's old contents, whatever b held before. |
| Phases.SelfRenameRuns | rename-via-sheet.py:98-103 | Running both passes on a → a completes and leaves the directory as it was, so such a pair needs no skip branch. |
| Renamer.BatchNames | rename-via-sheet.py:95-97 | Every source and destination of the batch is in the set. |
| Renamer.RunPass | rename-via-sheet.py:100-103 | The loop of one pass computes exactly the pass, stopping at the first exception. |
| Renamer.AllocatedExtend | rename-via-sheet.py:98 | A name outside every name used so far can be added to the staging names, keeping them fresh and distinct. |
| Renamer.AllocatedComplete | rename-via-sheet.py:95-98 | One allocated name per pair makes a set of staging names the passes can use safely. |
| Renamer.AllocateStaging | rename-via-sheet.py:95-99 | One staging name per pair, pairwise distinct and outside the directory and the batch, with one "Renaming" line per pair in order. |
| Renamer.RenameFiles | rename-via-sheet.py:78-103 | Prints one line per pair in input order. A dry run prints only dry-run lines and leaves the directory unchanged. A real run completes exactly when every source exists and none is repeated, and then reaches the intended outcome with no staging file left. Otherwise it reports the first call that raised, on its missing source, with the earlier pairs parked. |
| Renamer.DryRun | rename-via-sheet.py:91-93 | A dry run prints one dry-run line per pair in order, touches no file and uses no staging name. |
| Renamer.RenameBatch | rename-via-sheet.py:94-103 | A real run prints one "Renaming" line per pair in order and runs the passes with fresh staging names. It completes exactly when every source exists and none is repeated, and then reaches the intended outcome with no staging file left. Otherwise it reports the first call that raised, with the earlier pairs parked. |
| SheetRows.Filter | rename-via-sheet.py:75 | The filter keeps a row exactly when the row is in the input and passes the test, and it never returns more rows than it was given. |
| SheetRows.FilterAppend | rename-via-sheet.py:75 | Filtering a concatenation is the concatenation of the filtered parts, so the kept rows stay in input order. |
| SheetRows.FilterIdempotent | rename-via-sheet.py:75 | Filtering again changes nothing. |
| SheetRows.FilterKeepsAll | rename-via-sheet.py:75 | When every row passes, the filter returns the input unchanged. |
| SheetRows.TwoCellRows | rename-via-sheet.py:74-75 | The rows kept are exactly the input rows with two cells, and there are no more of them than input rows. |
| SheetRows.EmptySourceRowKept | rename-via-sheet.py:64-75 | A two-cell row with an empty source cell passes the filter as written but not the filter the docstring describes. A sheet holding such a row therefore yields strictly more rows than the docstring promises. |
| SheetRows.FilterDropsOne | rename-via-sheet.py:75 | A filter that rejects some row of its input returns fewer rows than it was given. |
| SheetRows.PopulatedRows | rename-via-sheet.py:67 | The rows kept are exactly the input rows with two non-empty cells. |
| SheetRows.FilterBoth | rename-via-sheet.py:67-75 | Filtering on two non-empty cells gives the same rows as first keeping the two-cell rows. |
| SheetRows.FilterSame | rename-via-sheet.py:67-75 | Where no two-cell row has an empty cell, both filters keep the same rows. |
| SheetRows.RenameList | rename-via-sheet.py:67 | The conversion the docstring promises: one pair per populated row, in row order, with the source from the first cell and the destination from the second, neither empty. A pair is in the batch exactly when the sheet has a row of those two filled-in cells. |
| SheetRows.PairsOfMembers | rename-via-sheet.py:96-97 | Reading each two-cell row as (source, destination) yields a pair exactly when its two names form one of the rows. |
| SheetRows.RenameListAsWritten | rename-via-sheet.py:75-97 | The batch the code hands to `renameFiles`: one pair per two-cell row, in row order, and a pair is in it exactly when the sheet has a row of those two cells, empty or not. |
| SheetRows.EmptySourcePairBuilt | rename-via-sheet.py:67-97 | A row with an empty source cell reaches the renamer as a pair moving the file named "". The promised batch does not hold that pair and is strictly shorter than the batch handed over. |
| SheetRows.EmptySourceBatchInvalid | rename-via-sheet.py:96-101 | With no file named "", a row with an empty source cell puts a pair with source "" in the batch the code builds, so that batch is not valid. |
| Phases.EmptySourceRowRaises | rename-via-sheet.py:75-101 | With no file named "", a row with an empty source cell makes the batch raise for any fresh staging names. The first pass stops at that pair or an earlier one, and the earlier sources stay parked under their staging names. |
| SheetRows.AsWrittenAgrees | rename-via-sheet.py:67-97 | Where no two-cell row has an empty cell, the batch the code builds is the batch the docstring promises. |

## Left out

- `getSheetsService` and the Sheets request in `getRenameList` (lines 39-61, 69-72) are OAuth, token caching and network I/O. The rows they return are the input to `SheetRows`.
- The argparse setup and the `__main__` wiring (lines 106-117) are command-line glue. The dry-run flag is a parameter of `RenameFiles` rather than the global `args`.
- FileSystem.FreshName: stands in for `tempfile.NamedTemporaryFile`, which picks random names in the working directory. The stand-in is deterministic and avoids every existing name, every batch name and every earlier staging name. The real guarantee is weaker, and that difference is the first finding below.
- Renamer.AllocateStaging: takes its staging names from `FreshName`, so they avoid the batch's names, which line 98 does not guarantee.
- Renamer.RenameBatch: its outcome contract rests on the staging names from `FreshName`. With names `NamedTemporaryFile` may pick, a file can be lost, as the first finding shows.
- Renamer.RenameFiles: its real-run contract rests on `RenameBatch`, and so on the same stand-in.
- Absolute paths, directories and `os.getcwd()` are not modelled. Names are flat strings of one directory, so two spellings of one file (`a`, `./a`, an absolute path to it) are different names in the model. For example, `ValidBatch` holds for the pairs (`a`, `x`), (`./a`, `y`), while the `os.replace` at line 101 would raise on the second pair because `a` is already moved.
- The exact text of the printed lines is not modelled. A line is a `Message` that records its kind and its pair.
- `os.replace` failures other than a missing source are not modelled: permissions, a full disk, a source or destination that is a directory, cross-device moves, and a destination whose directory does not exist (such as `out/b.txt`). In that last case line 103 raises `FileNotFoundError` in the middle of the second pass, and the later sources stay parked under their staging names. The code has no recovery for any of them.
- The code never closes the staging files it creates with `NamedTemporaryFile(delete=False)` explicitly. File handles are not modelled.
- The empty name `""` is an ordinary file name in the model. No real file has that name, so `os.replace("", …)` always raises `FileNotFoundError`. The lemmas about an empty source cell therefore take `"" !in fs` as a hypothesis.
- Renamer.AllocateStaging: prints each "Renaming" line after the staging file for that pair is created, while the model builds the whole log at the end. Only the sequence of lines is modelled, not how it interleaves with file creation.

## Findings

| source | as written | input that shows it | evidently intended | confidence | as-written member | corrected member |
|---|---|---|---|---|---|---|
| rename-via-sheet.py:98 | A staging name only has to be unused when it is created, so it can equal a destination of the batch that does not exist yet. | Files a and b holding [1] and [2]; pairs (a, tmpk3x9ab2q), (b, c); staging names tmp0q7wm4zr and tmpk3x9ab2q. The batch ends with only c, holding [1]: b's contents are lost and tmpk3x9ab2q is missing. | Staging names also avoid every source and destination of the batch, as the collision-avoidance comment at lines 80-81 promises. | low (needs a destination shaped like a random temp name); not executed | Phases.TempfileCollisionLosesFile | Phases.RenameWithFreshTemps |
| rename-via-sheet.py:67-75 | The filter keeps every row of exactly two cells, including a row whose first cell is empty. | Any sheet holding the row ["", "b"]: the row is kept, so the renamer is asked to move the file named "". No file has that name, so the real run always raises at that pair or an earlier one, leaving every earlier source parked under its staging name. | Rows with an empty source or destination are dropped, as the docstring at line 67 and the comment at line 74 say. | medium; not executed | Phases.EmptySourceRowRaises | SheetRows.RenameList |

=== FILE: filesystem.dfy ===
/**
 An abstract filesystem namespace: the working directory seen as a finite map
 from file names to file contents, with the one operation the renamer uses,
 `os.replace`, and the allocation of a name nobody uses yet.
 */
module FileSystem {

  type Name = string
  type Bytes = seq<bv8>

  /** The files of the directory: each bound name holds its contents. */
  type FS = map<Name, Bytes>

  /** The only failure `os.replace` can raise in this model. */
  datatype OsError = FileNotFound(path: Name)

  datatype Result<T> = Ok(value: T) | Err(error: OsError)

  /** `os.replace(src, dst)`: `src` disappears and `dst` now holds what `src`
      held, whatever `dst` held before; a missing `src` raises. */
  function Replace(fs: FS, src: Name, dst: Name): (r: Result<FS>)
    ensures r.Err? <==> src !in fs
  {
    if src !in fs then Err(FileNotFound(src))
    else Ok((fs - {src})[dst := fs[src]])
  }

  /** What one successful `os.replace` does to every name: the destination
      holds the source's old contents, the source is gone unless it is the
      destination, and every other name is left alone. */
  lemma ReplaceMoves(fs: FS, src: Name, dst: Name)
    ensures Replace(fs, src, dst).Err? ==> Replace(fs, src, dst).error == FileNotFound(src)
    ensures src in fs ==>
      var r := Replace(fs, src, dst).value;
      && dst in r && r[dst] == fs[src]
      && (src != dst ==> src !in r)
      && (forall n :: n != src && n != dst ==> (n in r <==> n in fs))
      && (forall n :: n in r && n != dst ==> r[n] == fs[n])
  {
  }

  /** Replacing a file by itself leaves the directory as it was. */
  lemma ReplaceSelf(fs: FS, n: Name)
    requires n in fs
    ensures Replace(fs, n, n) == Ok(fs)
  {
    assert (fs - {n})[n := fs[n]] == fs;
  }

  /** Empty files bound at each of `names`, as `NamedTemporaryFile(delete=False)` leaves them. */
  function EmptyFiles(names: seq<Name>): (m: FS)
    ensures forall n :: n in m <==> n in names
    ensures forall n :: n in m ==> m[n] == []
  {
    map n | n in names :: []
  }

  /** A name that is not in `used`: "tmp" padded past the length of the longest used name. */
  method FreshName(used: set<Name>) returns (t: Name)
    ensures t !in used
  {
    var longest: nat := 0;
    var rest := used;
    while rest != {}
      invariant rest <= used
      invariant forall n :: n in used && n !in rest ==> |n| <= longest
      decreases |rest|
    {
      var n :| n in rest;
      if |n| > longest {
        longest := |n|;
      }
      rest := rest - {n};
    }
    t := "tmp" + seq(longest, _ => 'x');
  }
}

=== FILE: passes.dfy ===
/**
 The two passes of `os.replace` calls that carry out a batch through staging
 names, with the staging names given, and the states the directory passes
 through on the way.
 */
module Passes {
  import opened FileSystem
  import opened RenamePlan

  /** One `os.replace(from, to)` call. */
  datatype Move = Move(from: Name, to: Name)

  /** The call at `index` of its pass raised `error`. */
  datatype Raise = Raise(index: nat, error: OsError)

  /** A run of calls either got through, or stopped at an exception with the
      directory as the calls before it left it. */
  datatype Progress = Done(fs: FS) | Stopped(fs: FS, raise: Raise)

  /** The call `m`, made as call `i` of its pass, after the run `p`: nothing
      happens once the run has stopped; otherwise it either moves the file or
      stops the run with the exception. */
  function Step(p: Progress, m: Move, i: nat): (q: Progress)
    ensures p.Stopped? ==> q == p
    ensures p.Done? ==> (q.Stopped? <==> m.from !in p.fs)
    ensures p.Done? && q.Stopped? ==> q == Stopped(p.fs, Raise(i, FileNotFound(m.from)))
  {
    if p.Stopped? then p
    else match Replace(p.fs, m.from, m.to)
      case Err(e) => Stopped(p.fs, Raise(i, e))
      case Ok(f) => Done(f)
  }

  /** The first `k` calls of `moves`, in order, stopping at the first that raises. */
  function ReplaceEach(fs: FS, moves: seq<Move>, k: nat): (p: Progress)
    requires k <= |moves|
    ensures p.Stopped? ==> p.raise.index < k
    ensures p.Stopped? ==> p.raise.error == FileNotFound(moves[p.raise.index].from)
    ensures p.Stopped? ==> moves[p.raise.index].from !in p.fs
  {
    if k == 0 then Done(fs)
    else Step(ReplaceEach(fs, moves, k - 1), moves[k - 1], k - 1)
  }

  /** A stopped run is the run of the calls before the one that raised. */
  lemma {:induction false} StoppedRunIsPrefix(fs: FS, moves: seq<Move>, k: nat)
    requires k <= |moves|
    requires ReplaceEach(fs, moves, k).Stopped?
    ensures ReplaceEach(fs, moves, ReplaceEach(fs, moves, k).raise.index) == Done(ReplaceEach(fs, moves, k).fs)
  {
    var p := ReplaceEach(fs, moves, k - 1);
    if p.Stopped? {
      StoppedRunIsPrefix(fs, moves, k - 1);
    }
  }

  /** Once a run has stopped, the remaining calls change nothing. */
  lemma {:induction false} StoppedRunStays(fs: FS, moves: seq<Move>, k: nat)
    requires k <= |moves|
    requires ReplaceEach(fs, moves, k).Stopped?
    ensures ReplaceEach(fs, moves, |moves|) == ReplaceEach(fs, moves, k)
    decreases |moves| - k
  {
    if k < |moves| {
      StoppedRunStays(fs, moves, k + 1);
    }
  }

  /** First pass: source `i` to staging name `i`. */
  function StageMoves(pairs: seq<Pair>, temps: seq<Name>): (m: seq<Move>)
    requires |temps| == |pairs|
    ensures |m| == |pairs|
    ensures forall i :: 0 <= i < |m| ==> m[i] == Move(pairs[i].source, temps[i])
  {
    seq(|pairs|, i requires 0 <= i < |pairs| => Move(pairs[i].source, temps[i]))
  }

  /** Second pass: staging name `i` to destination `i`. */
  function SettleMoves(pairs: seq<Pair>, temps: seq<Name>): (m: seq<Move>)
    requires |temps| == |pairs|
    ensures |m| == |pairs|
    ensures forall i :: 0 <= i < |m| ==> m[i] == Move(temps[i], pairs[i].destination)
  {
    seq(|pairs|, i requires 0 <= i < |pairs| => Move(temps[i], pairs[i].destination))
  }

  /** The renamer's three passes with the staging names `temps`: create an empty
      file at every staging name, then the first pass, then, if it got through,
      the second. */
  function RenameWithTemps(fs: FS, pairs: seq<Pair>, temps: seq<Name>): Progress
    requires |temps| == |pairs|
  {
    var staged := ReplaceEach(fs + EmptyFiles(temps), StageMoves(pairs, temps), |pairs|);
    if staged.Stopped? then staged
    else ReplaceEach(staged.fs, SettleMoves(pairs, temps), |pairs|)
  }

  /** Staging names as the renamer needs them: one per pair, pairwise distinct,
      and none of them an existing file, a source or a destination. */
  predicate FreshTemps(fs: FS, pairs: seq<Pair>, temps: seq<Name>) {
    && |temps| == |pairs|
    && (forall i :: 0 <= i < |temps| ==> temps[i] !in fs)
    && (forall i, j :: 0 <= i < |temps| && 0 <= j < |pairs| ==>
          temps[i] != pairs[j].source && temps[i] != pairs[j].destination)
    && (forall i, j :: 0 <= i < j < |temps| ==> temps[i] != temps[j])
  }

  /** What `NamedTemporaryFile` alone guarantees: each name was unused when it
      was created, so it avoids existing files and the earlier staging names,
      but not the names the batch has yet to create. */
  predicate TempfileFresh(fs: FS, temps: seq<Name>) {
    forall i :: 0 <= i < |temps| ==> temps[i] !in fs && temps[i] !in temps[..i]
  }

  /** The directory after the first `k` calls of the first pass: staging names
      before `k` hold their source's old contents, later ones are still empty,
      the first `k` sources are gone and every other name is untouched. */
  ghost predicate Staged(cur: FS, fs: FS, pairs: seq<Pair>, temps: seq<Name>, k: nat)
    requires |temps| == |pairs| && k <= |pairs|
  {
    && (forall j :: 0 <= j < k ==>
          pairs[j].source in fs && temps[j] in cur && cur[temps[j]] == fs[pairs[j].source])
    && (forall j :: k <= j < |temps| ==> temps[j] in cur && cur[temps[j]] == [])
    && (forall x {:trigger x in cur} :: x !in temps ==>
          && (x in cur <==> x in fs && x !in Vacated(pairs, k))
          && (x in cur ==> cur[x] == fs[x]))
  }

  /** The directory after the first `k` calls of the second pass: staging names
      before `k` are gone, later ones still hold their source's old contents,
      the names written so far hold what `Written` says, and every other name
      is as the first pass left it. */
  ghost predicate Settled(cur: FS, fs: FS, pairs: seq<Pair>, temps: seq<Name>, k: nat)
    requires |temps| == |pairs| && k <= |pairs|
    requires SourcesExist(fs, pairs)
  {
    && (forall j :: 0 <= j < k ==> temps[j] !in cur)
    && (forall j :: k <= j < |temps| ==> temps[j] in cur && cur[temps[j]] == fs[pairs[j].source])
    && (forall x {:trigger x in cur} :: x !in temps ==>
          && (x in cur <==> x in Written(fs, pairs, k) || (x in fs && x !in Vacated(pairs, |pairs|)))
          && (x in cur ==> cur[x] == if x in Written(fs, pairs, k) then Written(fs, pairs, k)[x] else fs[x]))
  }

  /** What the first pass has done after `k` calls: it got through exactly when
      every source so far was ready; otherwise it stopped at the first one that
      was not, with the pairs before it parked. */
  ghost predicate StagedRun(p: Progress, fs: FS, pairs: seq<Pair>, temps: seq<Name>, k: nat)
    requires |temps| == |pairs| && k <= |pairs|
  {
    match p
    case Done(cur) => ReadyBefore(fs, pairs, k) && Staged(cur, fs, pairs, temps, k)
    case Stopped(cur, r) =>
      && r.index < k
      && ReadyBefore(fs, pairs, r.index)
      && !SourceReady(fs, pairs, r.index)
      && Staged(cur, fs, pairs, temps, r.index)
  }

  /** The second pass after `k` calls: it has not raised and the directory is `Settled`. */
  ghost predicate SettledRun(p: Progress, fs: FS, pairs: seq<Pair>, temps: seq<Name>, k: nat)
    requires |temps| == |pairs| && k <= |pairs|
    requires SourcesExist(fs, pairs)
  {
    match p
    case Done(cur) => Settled(cur, fs, pairs, temps, k)
    case Stopped(_, _) => false
  }
}

=== FILE: phases.dfy ===
/**
 The proofs about the passes of `Passes`: each call of the first pass keeps
 `Staged`, each call of the second keeps `Settled`, and together they show
 that with fresh staging names the batch reaches `Simultaneous` exactly when
 it is valid (`RenameWithFreshTemps`). The scenarios below run the passes on
 small batches, and the collision example shows what goes wrong when a staging
 name is also a destination of the batch.
 */
module Phases {
  import opened FileSystem
  import opened RenamePlan
  import opened Passes
  import opened SheetRows

  lemma StagedAtStart(fs: FS, pairs: seq<Pair>, temps: seq<Name>)
    requires FreshTemps(fs, pairs, temps)
    ensures Staged(fs + EmptyFiles(temps), fs, pairs, temps, 0)
  {
  }

  /** Call `k - 1` of the first pass raises exactly when its source is not
      ready, and otherwise parks that source at its staging name. */
  lemma StageStep(cur: FS, fs: FS, pairs: seq<Pair>, temps: seq<Name>, k: nat)
    requires FreshTemps(fs, pairs, temps)
    requires 0 < k <= |pairs|
    requires Staged(cur, fs, pairs, temps, k - 1)
    ensures Replace(cur, pairs[k - 1].source, temps[k - 1]).Err? <==> !SourceReady(fs, pairs, k - 1)
    ensures Replace(cur, pairs[k - 1].source, temps[k - 1]).Ok? ==>
      Staged(Replace(cur, pairs[k - 1].source, temps[k - 1]).value, fs, pairs, temps, k)
  {
    assert pairs[k - 1].source !in temps;
    if pairs[k - 1].source in cur {
      StageStepTemps(cur, fs, pairs, temps, k);
      StageStepElsewhere(cur, fs, pairs, temps, k);
    }
  }

  /** A successful call of the first pass fills its staging name and leaves the
      other staging names alone. */
  lemma StageStepTemps(cur: FS, fs: FS, pairs: seq<Pair>, temps: seq<Name>, k: nat)
    requires FreshTemps(fs, pairs, temps)
    requires 0 < k <= |pairs|
    requires Staged(cur, fs, pairs, temps, k - 1)
    requires pairs[k - 1].source in cur
    ensures var next := Replace(cur, pairs[k - 1].source, temps[k - 1]).value;
      && (forall j :: 0 <= j < k ==>
            pairs[j].source in fs && temps[j] in next && next[temps[j]] == fs[pairs[j].source])
      && (forall j :: k <= j < |temps| ==> temps[j] in next && next[temps[j]] == [])
  {
    var s, t := pairs[k - 1].source, temps[k - 1];
    assert s !in temps;
    var next := Replace(cur, s, t).value;
    forall j | 0 <= j < k - 1
      ensures temps[j] in next && next[temps[j]] == fs[pairs[j].source]
    {
      assert temps[j] != s;
    }
  }

  /** A successful call of the first pass touches no name outside the staging
      names except its source. */
  lemma StageStepElsewhere(cur: FS, fs: FS, pairs: seq<Pair>, temps: seq<Name>, k: nat)
    requires FreshTemps(fs, pairs, temps)
    requires 0 < k <= |pairs|
    requires Staged(cur, fs, pairs, temps, k - 1)
    requires pairs[k - 1].source in cur
    ensures var next := Replace(cur, pairs[k - 1].source, temps[k - 1]).value;
      forall x {:trigger x in next} :: x !in temps ==>
        && (x in next <==> x in fs && x !in Vacated(pairs, k))
        && (x in next ==> next[x] == fs[x])
  {
    assert pairs[k - 1].source !in temps;
  }

  /** One more call of the first pass keeps `StagedRun`. */
  lemma StagedRunStep(p: Progress, fs: FS, pairs: seq<Pair>, temps: seq<Name>, k: nat)
    requires FreshTemps(fs, pairs, temps)
    requires 0 < k <= |pairs|
    requires StagedRun(p, fs, pairs, temps, k - 1)
    ensures StagedRun(Step(p, Move(pairs[k - 1].source, temps[k - 1]), k - 1), fs, pairs, temps, k)
  {
    if p.Done? {
      StageStep(p.fs, fs, pairs, temps, k);
    }
  }

  /** The first `k` calls of the first pass are the first `k - 1` and one more. */
  lemma StagePassStep(start: FS, fs: FS, pairs: seq<Pair>, temps: seq<Name>, k: nat)
    requires FreshTemps(fs, pairs, temps)
    requires 0 < k <= |pairs|
    requires StagedRun(ReplaceEach(start, StageMoves(pairs, temps), k - 1), fs, pairs, temps, k - 1)
    ensures StagedRun(ReplaceEach(start, StageMoves(pairs, temps), k), fs, pairs, temps, k)
  {
    var p := ReplaceEach(start, StageMoves(pairs, temps), k - 1);
    StagedRunStep(p, fs, pairs, temps, k);
    assert ReplaceEach(start, StageMoves(pairs, temps), k) == Step(p, Move(pairs[k - 1].source, temps[k - 1]), k - 1);
  }

  /** Before its first call the first pass has got through nothing. */
  lemma StagePassStart(start: FS, fs: FS, pairs: seq<Pair>, temps: seq<Name>)
    requires |temps| == |pairs|
    requires Staged(start, fs, pairs, temps, 0)
    ensures StagedRun(ReplaceEach(start, StageMoves(pairs, temps), 0), fs, pairs, temps, 0)
  {
  }

  /** The first pass stops at the first source that is not ready, leaving the
      pairs before it parked; when every source is ready it gets through. */
  lemma {:induction false} StagePass(start: FS, fs: FS, pairs: seq<Pair>, temps: seq<Name>, k: nat)
    requires FreshTemps(fs, pairs, temps)
    requires Staged(start, fs, pairs, temps, 0)
    requires k <= |pairs|
    ensures StagedRun(ReplaceEach(start, StageMoves(pairs, temps), k), fs, pairs, temps, k)
  {
    if k == 0 {
      StagePassStart(start, fs, pairs, temps);
    } else {
      StagePass(start, fs, pairs, temps, k - 1);
      StagePassStep(start, fs, pairs, temps, k);
    }
  }

  /** Once the first pass has got through, the second starts from `Settled` at 0. */
  lemma SettledAtStart(cur: FS, fs: FS, pairs: seq<Pair>, temps: seq<Name>)
    requires FreshTemps(fs, pairs, temps)
    requires ValidBatch(fs, pairs)
    requires Staged(cur, fs, pairs, temps, |pairs|)
    ensures Settled(cur, fs, pairs, temps, 0)
  {
  }

  /** Every call of the second pass finds its staging name and settles it. */
  lemma SettleStep(cur: FS, fs: FS, pairs: seq<Pair>, temps: seq<Name>, k: nat)
    requires FreshTemps(fs, pairs, temps)
    requires ValidBatch(fs, pairs)
    requires 0 < k <= |pairs|
    requires Settled(cur, fs, pairs, temps, k - 1)
    ensures Replace(cur, temps[k - 1], pairs[k - 1].destination).Ok?
    ensures Settled(Replace(cur, temps[k - 1], pairs[k - 1].destination).value, fs, pairs, temps, k)
  {
    SettleStepTemps(cur, fs, pairs, temps, k);
    SettleStepElsewhere(cur, fs, pairs, temps, k);
  }

  /** A call of the second pass removes its staging name and leaves the later
      ones alone. */
  lemma SettleStepTemps(cur: FS, fs: FS, pairs: seq<Pair>, temps: seq<Name>, k: nat)
    requires FreshTemps(fs, pairs, temps)
    requires ValidBatch(fs, pairs)
    requires 0 < k <= |pairs|
    requires Settled(cur, fs, pairs, temps, k - 1)
    ensures temps[k - 1] in cur
    ensures var next := Replace(cur, temps[k - 1], pairs[k - 1].destination).value;
      && (forall j :: 0 <= j < k ==> temps[j] !in next)
      && (forall j :: k <= j < |temps| ==> temps[j] in next && next[temps[j]] == fs[pairs[j].source])
  {
    var t, d := temps[k - 1], pairs[k - 1].destination;
    assert d !in temps;
    var next := Replace(cur, t, d).value;
    forall j | 0 <= j < k ensures temps[j] !in next {
    }
    forall j | k <= j < |temps|
      ensures temps[j] in next && next[temps[j]] == fs[pairs[j].source]
    {
      assert temps[j] != t;
    }
  }

  /** A call of the second pass changes no name outside the staging names
      except its destination, which now holds what `Written` says. */
  lemma SettleStepElsewhere(cur: FS, fs: FS, pairs: seq<Pair>, temps: seq<Name>, k: nat)
    requires FreshTemps(fs, pairs, temps)
    requires ValidBatch(fs, pairs)
    requires 0 < k <= |pairs|
    requires Settled(cur, fs, pairs, temps, k - 1)
    ensures var next := Replace(cur, temps[k - 1], pairs[k - 1].destination).value;
      var w := Written(fs, pairs, k);
      forall x {:trigger x in next} :: x !in temps ==>
        && (x in next <==> x in w || (x in fs && x !in Vacated(pairs, |pairs|)))
        && (x in next ==> next[x] == if x in w then w[x] else fs[x])
  {
    var t, d := temps[k - 1], pairs[k - 1].destination;
    assert d !in temps;
    var next := Replace(cur, t, d).value;
    var w, w' := Written(fs, pairs, k - 1), Written(fs, pairs, k);
    forall x | x !in temps
      ensures x in next <==> x in w' || (x in fs && x !in Vacated(pairs, |pairs|))
      ensures x in next ==> next[x] == if x in w' then w'[x] else fs[x]
    {
      if x != d {
        assert x in w' <==> x in w;
      }
    }
  }

  /** One more call of the second pass keeps `SettledRun`. */
  lemma SettledRunStep(p: Progress, fs: FS, pairs: seq<Pair>, temps: seq<Name>, k: nat)
    requires FreshTemps(fs, pairs, temps)
    requires ValidBatch(fs, pairs)
    requires 0 < k <= |pairs|
    requires SettledRun(p, fs, pairs, temps, k - 1)
    ensures SettledRun(Step(p, Move(temps[k - 1], pairs[k - 1].destination), k - 1), fs, pairs, temps, k)
  {
    SettleStep(p.fs, fs, pairs, temps, k);
  }

  /** The first `k` calls of the second pass are the first `k - 1` and one more. */
  lemma SettlePassStep(staged: FS, fs: FS, pairs: seq<Pair>, temps: seq<Name>, k: nat)
    requires FreshTemps(fs, pairs, temps)
    requires ValidBatch(fs, pairs)
    requires 0 < k <= |pairs|
    requires SettledRun(ReplaceEach(staged, SettleMoves(pairs, temps), k - 1), fs, pairs, temps, k - 1)
    ensures SettledRun(ReplaceEach(staged, SettleMoves(pairs, temps), k), fs, pairs, temps, k)
  {
    var p := ReplaceEach(staged, SettleMoves(pairs, temps), k - 1);
    SettledRunStep(p, fs, pairs, temps, k);
    assert ReplaceEach(staged, SettleMoves(pairs, temps), k) == Step(p, Move(temps[k - 1], pairs[k - 1].destination), k - 1);
  }

  /** The second pass never raises and leaves `Settled` at its end. */
  lemma {:induction false} SettlePass(staged: FS, fs: FS, pairs: seq<Pair>, temps: seq<Name>, k: nat)
    requires FreshTemps(fs, pairs, temps)
    requires ValidBatch(fs, pairs)
    requires Settled(staged, fs, pairs, temps, 0)
    requires k <= |pairs|
    ensures SettledRun(ReplaceEach(staged, SettleMoves(pairs, temps), k), fs, pairs, temps, k)
  {
    if k > 0 {
      SettlePass(staged, fs, pairs, temps, k - 1);
      SettlePassStep(staged, fs, pairs, temps, k);
    }
  }

  /** At the end of the second pass the directory is the simultaneous rename. */
  lemma SettledIsSimultaneous(cur: FS, fs: FS, pairs: seq<Pair>, temps: seq<Name>)
    requires FreshTemps(fs, pairs, temps)
    requires ValidBatch(fs, pairs)
    requires Settled(cur, fs, pairs, temps, |pairs|)
    ensures cur == Simultaneous(fs, pairs)
    ensures forall i :: 0 <= i < |temps| ==> temps[i] !in cur
  {
    var n := |pairs|;
    var r := Simultaneous(fs, pairs);
    forall x | x in temps ensures x !in cur && x !in r {
      var i :| 0 <= i < |temps| && temps[i] == x;
      VacatedMeans(pairs, n, x);
      WrittenByLastWriter(fs, pairs, n, x);
    }
    assert cur.Keys == r.Keys;
  }

  /** With fresh staging names, the renamer gets through exactly when every
      source exists and none is listed twice, and then leaves the directory as
      if all pairs had been renamed at once; otherwise the first pass raises at
      the first source that is not in place, with the pairs before it parked at
      their staging names and nothing moved to a destination. A run that gets
      through leaves no staging file behind. */
  lemma RenameWithFreshTemps(fs: FS, pairs: seq<Pair>, temps: seq<Name>)
    requires FreshTemps(fs, pairs, temps)
    ensures var p := RenameWithTemps(fs, pairs, temps);
      && (p.Done? <==> ValidBatch(fs, pairs))
      && (p.Done? ==> p.fs == Simultaneous(fs, pairs))
      && (p.Done? ==> forall i :: 0 <= i < |temps| ==> temps[i] !in p.fs)
      && (p.Stopped? ==>
            && p.raise.index < |pairs|
            && ReadyBefore(fs, pairs, p.raise.index)
            && !SourceReady(fs, pairs, p.raise.index)
            && p.raise.error == FileNotFound(pairs[p.raise.index].source)
            && Staged(p.fs, fs, pairs, temps, p.raise.index))
  {
    ValidBatchIffAllReady(fs, pairs);
    StagedAtStart(fs, pairs, temps);
    StagePass(fs + EmptyFiles(temps), fs, pairs, temps, |pairs|);
    var staged := ReplaceEach(fs + EmptyFiles(temps), StageMoves(pairs, temps), |pairs|);
    if staged.Done? {
      SettledAtStart(staged.fs, fs, pairs, temps);
      SettlePass(staged.fs, fs, pairs, temps, |pairs|);
      SettledIsSimultaneous(ReplaceEach(staged.fs, SettleMoves(pairs, temps), |pairs|).fs, fs, pairs, temps);
    }
  }

  /** The directory of the collision example once the staging files exist. */
  lemma CollisionStart(one: Bytes, two: Bytes)
    ensures map["a" := one, "b" := two] + EmptyFiles(["tmp0q7wm4zr", "tmpk3x9ab2q"])
      == map["a" := one, "b" := two, "tmp0q7wm4zr" := [], "tmpk3x9ab2q" := []]
  {
  }

  /** The two calls of the first pass of the collision example. */
  lemma CollisionParks(one: Bytes, two: Bytes)
    ensures Replace(map["a" := one, "b" := two, "tmp0q7wm4zr" := [], "tmpk3x9ab2q" := []], "a", "tmp0q7wm4zr")
      == Ok(map["b" := two, "tmp0q7wm4zr" := one, "tmpk3x9ab2q" := []])
    ensures Replace(map["b" := two, "tmp0q7wm4zr" := one, "tmpk3x9ab2q" := []], "b", "tmpk3x9ab2q")
      == Ok(map["tmp0q7wm4zr" := one, "tmpk3x9ab2q" := two])
  {
    assert "tmp0q7wm4zr"[3] != "tmpk3x9ab2q"[3];
    var start := map["a" := one, "b" := two, "tmp0q7wm4zr" := [], "tmpk3x9ab2q" := []];
    var parked1 := map["b" := two, "tmp0q7wm4zr" := one, "tmpk3x9ab2q" := []];
    assert start - {"a"} == map["b" := two, "tmp0q7wm4zr" := [], "tmpk3x9ab2q" := []];
    assert (start - {"a"})["tmp0q7wm4zr" := one] == parked1;
    assert parked1 - {"b"} == map["tmp0q7wm4zr" := one, "tmpk3x9ab2q" := []];
    assert (parked1 - {"b"})["tmpk3x9ab2q" := two] == map["tmp0q7wm4zr" := one, "tmpk3x9ab2q" := two];
  }

  /** The first pass of the collision example: both sources are parked. */
  lemma CollisionStaging(one: Bytes, two: Bytes)
    ensures var pairs := [Pair("a", "tmpk3x9ab2q"), Pair("b", "c")];
      var temps := ["tmp0q7wm4zr", "tmpk3x9ab2q"];
      ReplaceEach(map["a" := one, "b" := two] + EmptyFiles(temps), StageMoves(pairs, temps), 2)
        == Done(map["tmp0q7wm4zr" := one, "tmpk3x9ab2q" := two])
  {
    var pairs := [Pair("a", "tmpk3x9ab2q"), Pair("b", "c")];
    var temps := ["tmp0q7wm4zr", "tmpk3x9ab2q"];
    var start := map["a" := one, "b" := two] + EmptyFiles(temps);
    CollisionStart(one, two);
    CollisionParks(one, two);
    var stage := StageMoves(pairs, temps);
    assert stage[0] == Move("a", "tmp0q7wm4zr") && stage[1] == Move("b", "tmpk3x9ab2q");
    assert ReplaceEach(start, stage, 1) == Done(map["b" := two, "tmp0q7wm4zr" := one, "tmpk3x9ab2q" := []]);
  }

  /** The second pass of the collision example: the first settle call lands on
      the second staging name, and the second call carries it on. */
  lemma CollisionSettling(one: Bytes, two: Bytes)
    ensures var pairs := [Pair("a", "tmpk3x9ab2q"), Pair("b", "c")];
      var temps := ["tmp0q7wm4zr", "tmpk3x9ab2q"];
      ReplaceEach(map["tmp0q7wm4zr" := one, "tmpk3x9ab2q" := two], SettleMoves(pairs, temps), 2)
        == Done(map["c" := one])
  {
    var pairs := [Pair("a", "tmpk3x9ab2q"), Pair("b", "c")];
    var temps := ["tmp0q7wm4zr", "tmpk3x9ab2q"];
    var parked := map["tmp0q7wm4zr" := one, "tmpk3x9ab2q" := two];
    assert "tmp0q7wm4zr"[3] != "tmpk3x9ab2q"[3];
    var settle := SettleMoves(pairs, temps);
    assert settle[0] == Move("tmp0q7wm4zr", "tmpk3x9ab2q") && settle[1] == Move("tmpk3x9ab2q", "c");
    var settled1 := map["tmpk3x9ab2q" := one];
    assert parked - {"tmp0q7wm4zr"} == map["tmpk3x9ab2q" := two];
    assert (parked - {"tmp0q7wm4zr"})["tmpk3x9ab2q" := one] == settled1;
    assert ReplaceEach(parked, settle, 1) == Done(settled1);
  }

  /** What the collision example's batch means: a's contents at its
      destination, b's at c. */
  lemma CollisionIntended(one: Bytes, two: Bytes)
    ensures Simultaneous(map["a" := one, "b" := two], [Pair("a", "tmpk3x9ab2q"), Pair("b", "c")])
      == map["tmpk3x9ab2q" := one, "c" := two]
  {
    var fs := map["a" := one, "b" := two];
    var pairs := [Pair("a", "tmpk3x9ab2q"), Pair("b", "c")];
    assert Vacated(pairs, 2) == {"a", "b"} by {
      assert Vacated(pairs, 1) == {"a"};
    }
    assert Written(fs, pairs, 2) == map["tmpk3x9ab2q" := one, "c" := two] by {
      assert Written(fs, pairs, 1) == map["tmpk3x9ab2q" := one];
    }
    assert fs - {"a", "b"} == map[];
  }

  /** The collision example's batch and staging names are legitimate. */
  lemma CollisionBatch()
    ensures TempfileFresh(map["a" := [1 as bv8], "b" := [2 as bv8]], ["tmp0q7wm4zr", "tmpk3x9ab2q"])
    ensures ValidBatch(map["a" := [1 as bv8], "b" := [2 as bv8]], [Pair("a", "tmpk3x9ab2q"), Pair("b", "c")])
    ensures DistinctDestinations([Pair("a", "tmpk3x9ab2q"), Pair("b", "c")])
  {
    var temps := ["tmp0q7wm4zr", "tmpk3x9ab2q"];
    assert "tmp0q7wm4zr"[3] != "tmpk3x9ab2q"[3];
    assert temps[..1] == ["tmp0q7wm4zr"];
  }

  /** A staging name that `NamedTemporaryFile` may legitimately pick can equal a
      destination that does not exist yet. Here the second staging name is also
      the first destination: the first settle call puts a's contents there,
      over b's parked contents, and the second call then moves them on to c.
      b's contents are lost and the first destination ends up missing, although
      the batch is valid. */
  lemma TempfileCollisionLosesFile()
    ensures var fs := map["a" := [1 as bv8], "b" := [2 as bv8]];
      var pairs := [Pair("a", "tmpk3x9ab2q"), Pair("b", "c")];
      var temps := ["tmp0q7wm4zr", "tmpk3x9ab2q"];
      && TempfileFresh(fs, temps)
      && ValidBatch(fs, pairs)
      && DistinctDestinations(pairs)
      && RenameWithTemps(fs, pairs, temps) == Done(map["c" := [1 as bv8]])
      && Simultaneous(fs, pairs) == map["tmpk3x9ab2q" := [1 as bv8], "c" := [2 as bv8]]
  {
    CollisionBatch();
    CollisionStaging([1], [2]);
    CollisionSettling([1], [2]);
    CollisionIntended([1], [2]);
  }

  /** A pair whose source does not exist makes the very first call raise; the
      empty staging file created for it stays behind. */
  lemma MissingSourceScenario(fs: FS, src: Name, dst: Name, t: Name)
    requires src !in fs
    requires FreshTemps(fs, [Pair(src, dst)], [t])
    ensures RenameWithTemps(fs, [Pair(src, dst)], [t]) == Stopped(fs[t := []], Raise(0, FileNotFound(src)))
  {
    var start := fs + EmptyFiles([t]);
    assert start == fs[t := []];
    var stage := StageMoves([Pair(src, dst)], [t]);
    assert stage[0] == Move(src, t);
    assert src != t && src !in start;
    assert ReplaceEach(start, stage, 1) == Step(Done(start), stage[0], 0);
  }

  /** Running the passes on a single pair whose destination exists and is no
      source: no call raises and the destination is overwritten. */
  lemma OverwriteRuns(a: Name, b: Name, t: Name, ca: Bytes, cb: Bytes)
    requires a != b && t != a && t != b
    ensures RenameWithTemps(map[a := ca, b := cb], [Pair(a, b)], [t]) == Done(map[b := ca])
  {
    var fs, pairs := map[a := ca, b := cb], [Pair(a, b)];
    assert FreshTemps(fs, pairs, [t]);
    RenameWithFreshTemps(fs, pairs, [t]);
    assert ValidBatch(fs, pairs);
    OverwriteScenario(a, b, ca, cb);
  }

  /** Running the passes on a swap exchanges the two contents. */
  lemma SwapRuns(a: Name, b: Name, s: Name, t: Name, ca: Bytes, cb: Bytes)
    requires a != b && s != t
    requires s != a && s != b && t != a && t != b
    ensures RenameWithTemps(map[a := ca, b := cb], [Pair(a, b), Pair(b, a)], [s, t])
         == Done(map[a := cb, b := ca])
  {
    var fs, pairs := map[a := ca, b := cb], [Pair(a, b), Pair(b, a)];
    assert FreshTemps(fs, pairs, [s, t]);
    RenameWithFreshTemps(fs, pairs, [s, t]);
    assert ValidBatch(fs, pairs);
    SwapScenario(a, b, ca, cb);
  }

  /** Running the passes on the cycle a -> b -> c -> a rotates the contents. */
  lemma CycleRuns(a: Name, b: Name, c: Name, temps: seq<Name>, ca: Bytes, cb: Bytes, cc: Bytes)
    requires a != b && b != c && a != c
    requires FreshTemps(map[a := ca, b := cb, c := cc], [Pair(a, b), Pair(b, c), Pair(c, a)], temps)
    ensures RenameWithTemps(map[a := ca, b := cb, c := cc], [Pair(a, b), Pair(b, c), Pair(c, a)], temps)
         == Done(map[a := cc, b := ca, c := cb])
  {
    var fs, pairs := map[a := ca, b := cb, c := cc], [Pair(a, b), Pair(b, c), Pair(c, a)];
    CycleValid(a, b, c, ca, cb, cc);
    RenameWithFreshTemps(fs, pairs, temps);
    CycleScenario(a, b, c, ca, cb, cc);
  }

  lemma CycleValid(a: Name, b: Name, c: Name, ca: Bytes, cb: Bytes, cc: Bytes)
    requires a != b && b != c && a != c
    ensures ValidBatch(map[a := ca, b := cb, c := cc], [Pair(a, b), Pair(b, c), Pair(c, a)])
  {
  }

  /** Running the passes on a pair whose source is its destination leaves the
      directory as it was, with no staging file behind. */
  lemma SelfRenameRuns(fs: FS, a: Name, t: Name)
    requires a in fs && t !in fs && t != a
    ensures RenameWithTemps(fs, [Pair(a, a)], [t]) == Done(fs)
  {
    var pairs := [Pair(a, a)];
    assert FreshTemps(fs, pairs, [t]);
    RenameWithFreshTemps(fs, pairs, [t]);
    assert ValidBatch(fs, pairs);
    SelfRenameScenario(fs, a);
  }

  /** With no file named "", a sheet row with an empty source cell makes the
      batch the code builds raise, however fresh the staging names: the first
      pass stops at that pair or at an earlier one, leaving the sources before
      it parked under their staging names. */
  lemma EmptySourceRowRaises(fs: FS, rows: seq<Row>, d: string, temps: seq<Name>)
    requires "" !in fs && ["", d] in rows
    requires FreshTemps(fs, RenameListAsWritten(rows), temps)
    ensures var pairs := RenameListAsWritten(rows);
      var p := RenameWithTemps(fs, pairs, temps);
      && p.Stopped?
      && (forall i :: 0 <= i < |pairs| && pairs[i].source == "" ==> p.raise.index <= i)
      && Staged(p.fs, fs, pairs, temps, p.raise.index)
  {
    var pairs := RenameListAsWritten(rows);
    EmptySourceBatchInvalid(fs, rows, d);
    RenameWithFreshTemps(fs, pairs, temps);
    var p := RenameWithTemps(fs, pairs, temps);
    forall i | 0 <= i < |pairs| && pairs[i].source == ""
      ensures p.raise.index <= i
    {
      if p.raise.index > i {
        assert false;
      }
    }
  }

  /** `NamedTemporaryFile` may pick a pair's own destination as its staging
      name when that destination does not exist yet. The second pass then
      replaces that file by itself, which changes nothing, so the batch still
      reaches the intended outcome. */
  lemma OwnDestinationStagingRuns(fs: FS, a: Name, b: Name)
    requires a in fs && b !in fs && a != b
    ensures RenameWithTemps(fs, [Pair(a, b)], [b]) == Done((fs - {a})[b := fs[a]])
    ensures RenameWithTemps(fs, [Pair(a, b)], [b]) == Done(Simultaneous(fs, [Pair(a, b)]))
  {
    var pairs := [Pair(a, b)];
    var start := fs + EmptyFiles([b]);
    assert start == fs[b := []];
    var stage := StageMoves(pairs, [b]);
    assert stage[0] == Move(a, b);
    var parked := (start - {a})[b := fs[a]];
    assert Replace(start, a, b) == Ok(parked);
    assert ReplaceEach(start, stage, 1) == Step(Done(start), stage[0], 0);
    var settle := SettleMoves(pairs, [b]);
    assert settle[0] == Move(b, b);
    ReplaceSelf(parked, b);
    assert ReplaceEach(parked, settle, 1) == Step(Done(parked), settle[0], 0);
    assert parked == (fs - {a})[b := fs[a]];
    OverwriteMeaning(fs, a, b);
  }

  /** The intended outcome of a single pair moving an existing file `a` to
      another name `b`: `a` is gone and `b` holds its old contents. */
  lemma OverwriteMeaning(fs: FS, a: Name, b: Name)
    requires a in fs && a != b
    ensures Simultaneous(fs, [Pair(a, b)]) == (fs - {a})[b := fs[a]]
  {
    var pairs := [Pair(a, b)];
    SimultaneousMeaning(fs, pairs);
    assert IsSource(pairs, a) && IsDestination(pairs, b);
    forall x | x != a && x != b ensures !IsSource(pairs, x) && !IsDestination(pairs, x) {
    }
  }
}

=== FILE: plan.dfy ===
/**
 What a batch of renames means, independently of how it is carried out: the
 directory after every pair is renamed at the same instant. The staged
 algorithm in `Phases` is proved to reach exactly this state.
 */
module RenamePlan {
  import opened FileSystem

  /** One two-cell row of the mapping: rename `source` to `destination`. */
  datatype Pair = Pair(source: Name, destination: Name)

  /** The names the first `k` pairs move away. */
  function Vacated(pairs: seq<Pair>, k: nat): set<Name>
    requires k <= |pairs|
  {
    if k == 0 then {} else Vacated(pairs, k - 1) + {pairs[k - 1].source}
  }

  /** A name is vacated by the first `k` pairs exactly when one of them has it as its source. */
  lemma {:induction false} VacatedMeans(pairs: seq<Pair>, k: nat, x: Name)
    requires k <= |pairs|
    ensures x in Vacated(pairs, k) <==> exists j :: 0 <= j < k && pairs[j].source == x
  {
    if k > 0 {
      VacatedMeans(pairs, k - 1, x);
    }
  }

  /** When the first pass reaches pair `k`, its source is still in place:
      it existed to begin with and no earlier pair has already moved it. */
  predicate SourceReady(fs: FS, pairs: seq<Pair>, k: nat)
    requires k < |pairs|
  {
    pairs[k].source in fs && pairs[k].source !in Vacated(pairs, k)
  }

  /** Every pair before `k` finds its source ready. */
  predicate ReadyBefore(fs: FS, pairs: seq<Pair>, k: nat)
    requires k <= |pairs|
  {
    forall j :: 0 <= j < k ==> SourceReady(fs, pairs, j)
  }

  predicate SourcesExist(fs: FS, pairs: seq<Pair>) {
    forall i :: 0 <= i < |pairs| ==> pairs[i].source in fs
  }

  /** Every source exists and no source is listed twice. */
  predicate ValidBatch(fs: FS, pairs: seq<Pair>) {
    && SourcesExist(fs, pairs)
    && (forall i, j :: 0 <= i < j < |pairs| ==> pairs[i].source != pairs[j].source)
  }

  predicate DistinctDestinations(pairs: seq<Pair>) {
    forall i, j :: 0 <= i < j < |pairs| ==> pairs[i].destination != pairs[j].destination
  }

  /** A batch is valid exactly when every pair's source is ready in turn. */
  lemma ValidBatchIffAllReady(fs: FS, pairs: seq<Pair>)
    ensures ValidBatch(fs, pairs) <==> ReadyBefore(fs, pairs, |pairs|)
  {
    forall k | 0 <= k < |pairs| {
      VacatedMeans(pairs, k, pairs[k].source);
    }
    if ReadyBefore(fs, pairs, |pairs|) {
      forall i, j | 0 <= i < j < |pairs|
        ensures pairs[i].source != pairs[j].source
      {
        assert SourceReady(fs, pairs, j);
      }
      forall i | 0 <= i < |pairs| ensures pairs[i].source in fs {
        assert SourceReady(fs, pairs, i);
      }
    }
  }

  /** The last of the first `k` pairs that writes `x`, or -1 when none does. */
  function LastWriter(pairs: seq<Pair>, x: Name, k: nat): (w: int)
    requires k <= |pairs|
    ensures -1 <= w < k
    ensures w >= 0 ==> pairs[w].destination == x
    ensures forall j :: w < j < k ==> pairs[j].destination != x
  {
    if k == 0 then -1
    else if pairs[k - 1].destination == x then k - 1
    else LastWriter(pairs, x, k - 1)
  }

  /** The destinations the first `k` pairs write, each bound to the old
      contents of the source of the last of them naming it. */
  function Written(fs: FS, pairs: seq<Pair>, k: nat): map<Name, Bytes>
    requires k <= |pairs|
    requires SourcesExist(fs, pairs)
  {
    if k == 0 then map[]
    else Written(fs, pairs, k - 1)[pairs[k - 1].destination := fs[pairs[k - 1].source]]
  }

  /** `Written` binds exactly the names some pair writes, and each to what its last writer brings. */
  lemma {:induction false} WrittenByLastWriter(fs: FS, pairs: seq<Pair>, k: nat, x: Name)
    requires k <= |pairs|
    requires SourcesExist(fs, pairs)
    ensures x in Written(fs, pairs, k) <==> LastWriter(pairs, x, k) >= 0
    ensures x in Written(fs, pairs, k) ==>
      Written(fs, pairs, k)[x] == fs[pairs[LastWriter(pairs, x, k)].source]
  {
    if k > 0 {
      WrittenByLastWriter(fs, pairs, k - 1, x);
    }
  }

  /** The directory after every pair is renamed at once: all sources are
      vacated, then every destination is bound to the OLD contents of its
      source. */
  function Simultaneous(fs: FS, pairs: seq<Pair>): FS
    requires SourcesExist(fs, pairs)
  {
    (fs - Vacated(pairs, |pairs|)) + Written(fs, pairs, |pairs|)
  }

  /** A name some pair has as its source. */
  predicate IsSource(pairs: seq<Pair>, x: Name) {
    exists i :: 0 <= i < |pairs| && pairs[i].source == x
  }

  /** A name some pair has as its destination. */
  predicate IsDestination(pairs: seq<Pair>, x: Name) {
    exists i :: 0 <= i < |pairs| && pairs[i].destination == x
  }

  /** What the simultaneous rename does to every name: a destination holds the
      old contents of its last writer's source (of its only writer's source
      when destinations are distinct), a source that is no destination is gone,
      and a name that is neither keeps its contents or stays absent. */
  lemma SimultaneousMeaning(fs: FS, pairs: seq<Pair>)
    requires SourcesExist(fs, pairs)
    ensures forall i :: 0 <= i < |pairs| && LastWriter(pairs, pairs[i].destination, |pairs|) == i ==>
      pairs[i].destination in Simultaneous(fs, pairs)
      && Simultaneous(fs, pairs)[pairs[i].destination] == fs[pairs[i].source]
    ensures DistinctDestinations(pairs) ==> forall i :: 0 <= i < |pairs| ==>
      pairs[i].destination in Simultaneous(fs, pairs)
      && Simultaneous(fs, pairs)[pairs[i].destination] == fs[pairs[i].source]
    ensures forall x :: IsSource(pairs, x) && !IsDestination(pairs, x) ==> x !in Simultaneous(fs, pairs)
    ensures forall x :: !IsSource(pairs, x) && !IsDestination(pairs, x) ==>
      (x in Simultaneous(fs, pairs) <==> x in fs)
      && (x in Simultaneous(fs, pairs) ==> Simultaneous(fs, pairs)[x] == fs[x])
  {
    var n := |pairs|;
    var r := Simultaneous(fs, pairs);
    forall i | 0 <= i < n && LastWriter(pairs, pairs[i].destination, n) == i
      ensures pairs[i].destination in r && r[pairs[i].destination] == fs[pairs[i].source]
    {
      WrittenByLastWriter(fs, pairs, n, pairs[i].destination);
    }
    if DistinctDestinations(pairs) {
      forall i | 0 <= i < n ensures LastWriter(pairs, pairs[i].destination, n) == i {
        OnlyWriter(pairs, i);
      }
    }
    forall x | !IsDestination(pairs, x)
      ensures x !in Written(fs, pairs, n)
    {
      WrittenByLastWriter(fs, pairs, n, x);
    }
    forall x | IsSource(pairs, x) ensures x in Vacated(pairs, n) {
      VacatedMeans(pairs, n, x);
    }
    forall x | !IsSource(pairs, x) ensures x !in Vacated(pairs, n) {
      VacatedMeans(pairs, n, x);
    }
  }

  /** With distinct destinations the last writer of a destination is its only writer. */
  lemma OnlyWriter(pairs: seq<Pair>, i: nat)
    requires DistinctDestinations(pairs)
    requires i < |pairs|
    ensures LastWriter(pairs, pairs[i].destination, |pairs|) == i
  {
  }

  /** A batch with distinct destinations holds no pair twice. */
  lemma {:induction false} DistinctCountsOnce(pairs: seq<Pair>, p: Pair)
    requires DistinctDestinations(pairs)
    ensures multiset(pairs)[p] <= 1
  {
    if pairs != [] {
      DistinctCountsOnce(pairs[1..], p);
      assert pairs == [pairs[0]] + pairs[1..];
      if pairs[0] == p {
        assert p !in pairs[1..] by {
          forall k | 0 <= k < |pairs[1..]| ensures pairs[1..][k] != p {
            assert pairs[0].destination != pairs[k + 1].destination;
          }
        }
      }
    }
  }

  /** Reordering a batch whose destinations are distinct keeps them distinct. */
  lemma DistinctDestinationsPermuted(pairs: seq<Pair>, pairs': seq<Pair>)
    requires multiset(pairs) == multiset(pairs')
    requires DistinctDestinations(pairs)
    ensures DistinctDestinations(pairs')
  {
    forall i, j | 0 <= i < j < |pairs'|
      ensures pairs'[i].destination != pairs'[j].destination
    {
      if pairs'[i] == pairs'[j] {
        var p := pairs'[i];
        assert pairs' == pairs'[..j] + [pairs'[j]] + pairs'[j + 1..];
        assert p in pairs'[..j];
        assert multiset(pairs')[p] >= 2;
        DistinctCountsOnce(pairs, p);
        assert false;
      } else {
        assert pairs'[i] in multiset(pairs) && pairs'[j] in multiset(pairs);
        var k :| 0 <= k < |pairs| && pairs[k] == pairs'[i];
        var l :| 0 <= l < |pairs| && pairs[l] == pairs'[j];
        assert k != l;
      }
    }
  }

  /** With distinct destinations, the outcome does not depend on the order of the pairs. */
  lemma SimultaneousIgnoresOrder(fs: FS, pairs: seq<Pair>, pairs': seq<Pair>)
    requires multiset(pairs) == multiset(pairs')
    requires SourcesExist(fs, pairs)
    requires DistinctDestinations(pairs)
    ensures DistinctDestinations(pairs')
    ensures SourcesExist(fs, pairs')
    ensures Simultaneous(fs, pairs) == Simultaneous(fs, pairs')
  {
    DistinctDestinationsPermuted(pairs, pairs');
    forall i | 0 <= i < |pairs'| ensures pairs'[i].source in fs {
      assert pairs'[i] in multiset(pairs);
    }
    var n, n' := |pairs|, |pairs'|;
    forall x ensures x in Vacated(pairs, n) <==> x in Vacated(pairs', n') {
      VacatedMeans(pairs, n, x);
      VacatedMeans(pairs', n', x);
      if i :| 0 <= i < n && pairs[i].source == x {
        assert pairs[i] in multiset(pairs');
        var j :| 0 <= j < n' && pairs'[j] == pairs[i];
      }
      if i :| 0 <= i < n' && pairs'[i].source == x {
        assert pairs'[i] in multiset(pairs);
        var j :| 0 <= j < n && pairs[j] == pairs'[i];
      }
    }
    forall x
      ensures x in Written(fs, pairs, n) <==> x in Written(fs, pairs', n')
      ensures x in Written(fs, pairs, n) ==> Written(fs, pairs, n)[x] == Written(fs, pairs', n')[x]
    {
      WrittenByLastWriter(fs, pairs, n, x);
      WrittenByLastWriter(fs, pairs', n', x);
      var w := LastWriter(pairs, x, n);
      if w >= 0 {
        assert pairs[w] in multiset(pairs');
        var j :| 0 <= j < n' && pairs'[j] == pairs[w];
        OnlyWriter(pairs', j);
      }
      var w' := LastWriter(pairs', x, n');
      if w' >= 0 {
        assert pairs'[w'] in multiset(pairs);
        var j :| 0 <= j < n && pairs[j] == pairs'[w'];
        OnlyWriter(pairs, j);
      }
    }
    assert Vacated(pairs, n) == Vacated(pairs', n');
    assert Written(fs, pairs, n) == Written(fs, pairs', n');
  }

  /** Swapping two files exchanges their contents. */
  lemma SwapScenario(a: Name, b: Name, ca: Bytes, cb: Bytes)
    requires a != b
    ensures Simultaneous(map[a := ca, b := cb], [Pair(a, b), Pair(b, a)]) == map[a := cb, b := ca]
  {
    var fs, pairs := map[a := ca, b := cb], [Pair(a, b), Pair(b, a)];
    assert Vacated(pairs, 1) == {a};
    assert Vacated(pairs, 2) == {a, b};
    assert Written(fs, pairs, 1) == map[b := ca];
    assert Written(fs, pairs, 2) == map[b := ca, a := cb];
  }

  /** A full cycle a -> b -> c -> a rotates the three contents. */
  lemma CycleScenario(a: Name, b: Name, c: Name, ca: Bytes, cb: Bytes, cc: Bytes)
    requires a != b && b != c && a != c
    ensures Simultaneous(map[a := ca, b := cb, c := cc], [Pair(a, b), Pair(b, c), Pair(c, a)])
         == map[a := cc, b := ca, c := cb]
  {
    var fs, pairs := map[a := ca, b := cb, c := cc], [Pair(a, b), Pair(b, c), Pair(c, a)];
    assert Vacated(pairs, 1) == {a};
    assert Vacated(pairs, 2) == {a, b};
    assert Vacated(pairs, 3) == {a, b, c};
    assert Written(fs, pairs, 1) == map[b := ca];
    assert Written(fs, pairs, 2) == map[b := ca, c := cb];
    assert Written(fs, pairs, 3) == map[b := ca, c := cb, a := cc];
  }

  /** A destination that exists but is no source is overwritten; the batch does not refuse it. */
  lemma OverwriteScenario(a: Name, b: Name, ca: Bytes, cb: Bytes)
    requires a != b
    ensures Simultaneous(map[a := ca, b := cb], [Pair(a, b)]) == map[b := ca]
  {
    var fs, pairs := map[a := ca, b := cb], [Pair(a, b)];
    assert Vacated(pairs, 1) == {a};
    assert Written(fs, pairs, 1) == map[b := ca];
    assert fs - {a} == map[b := cb];
  }

  /** Renaming a file to itself leaves the directory as it was. */
  lemma SelfRenameScenario(fs: FS, a: Name)
    requires a in fs
    ensures Simultaneous(fs, [Pair(a, a)]) == fs
  {
    var pairs := [Pair(a, a)];
    assert Vacated(pairs, 1) == {a};
    assert Written(fs, pairs, 1) == map[a := fs[a]];
  }
}

=== FILE: renamer.dfy ===
/**
 `renameFiles`: either announce every pair of the batch and touch nothing
 (dry run), or announce every pair while allocating one staging file per pair,
 then run the two passes of `os.replace` calls through those staging files.
 */
module Renamer {
  import opened FileSystem
  import opened RenamePlan
  import opened Passes
  import opened Phases

  /** A line the renamer prints, for the pair it is about. */
  datatype Message = DryRunNotice(pair: Pair) | RenamingNotice(pair: Pair)

  /** Whether the batch went through, or which call of its pass raised what. */
  datatype Status = Completed | Raised(index: nat, error: OsError)

  /** The directory afterwards, the lines printed, the staging names used (none
      on a dry run) and how the run ended. */
  datatype Outcome = Outcome(fs: FS, log: seq<Message>, staging: seq<Name>, status: Status)

  /** Every source and destination the batch mentions. */
  function BatchNames(pairs: seq<Pair>): (names: set<Name>)
    ensures forall i :: 0 <= i < |pairs| ==> pairs[i].source in names && pairs[i].destination in names
  {
    (set i | 0 <= i < |pairs| :: pairs[i].source) + (set i | 0 <= i < |pairs| :: pairs[i].destination)
  }

  /** The run of the passes an outcome reports. */
  function AsProgress(out: Outcome): Progress {
    match out.status
    case Completed => Done(out.fs)
    case Raised(i, e) => Stopped(out.fs, Raise(i, e))
  }

  /** Rename every pair of `pairs` as one batch, or only announce them when
      `dryRun` is set. A real run allocates staging names that avoid every
      existing file and every name of the batch, and then behaves as
      `RenameWithFreshTemps` describes. */
  method RenameFiles(fs: FS, pairs: seq<Pair>, dryRun: bool) returns (out: Outcome)
    ensures |out.log| == |pairs|
    ensures forall i :: 0 <= i < |pairs| ==>
      out.log[i] == if dryRun then DryRunNotice(pairs[i]) else RenamingNotice(pairs[i])
    ensures dryRun ==> out.fs == fs && out.staging == [] && out.status == Completed
    ensures !dryRun ==> FreshTemps(fs, pairs, out.staging)
    ensures !dryRun ==> AsProgress(out) == RenameWithTemps(fs, pairs, out.staging)
    ensures !dryRun ==> (out.status == Completed <==> ValidBatch(fs, pairs))
    ensures !dryRun && out.status == Completed ==> out.fs == Simultaneous(fs, pairs)
    ensures !dryRun && out.status == Completed ==>
      forall i :: 0 <= i < |out.staging| ==> out.staging[i] !in out.fs
    ensures !dryRun && out.status.Raised? ==>
      && out.status.index < |pairs|
      && ReadyBefore(fs, pairs, out.status.index)
      && !SourceReady(fs, pairs, out.status.index)
      && out.status.error == FileNotFound(pairs[out.status.index].source)
      && Staged(out.fs, fs, pairs, out.staging, out.status.index)
  {
    if dryRun {
      out := DryRun(fs, pairs);
    } else {
      out := RenameBatch(fs, pairs);
    }
  }

  /** The dry-run branch: one notice per pair, in order, and nothing else. */
  method DryRun(fs: FS, pairs: seq<Pair>) returns (out: Outcome)
    ensures |out.log| == |pairs|
    ensures forall i :: 0 <= i < |pairs| ==> out.log[i] == DryRunNotice(pairs[i])
    ensures out.fs == fs && out.staging == [] && out.status == Completed
  {
    var log := seq(|pairs|, i requires 0 <= i < |pairs| => DryRunNotice(pairs[i]));
    return Outcome(fs, log, [], Completed);
  }

  /** The real-run branch: allocate the staging names, then run both passes. */
  method RenameBatch(fs: FS, pairs: seq<Pair>) returns (out: Outcome)
    ensures |out.log| == |pairs|
    ensures forall i :: 0 <= i < |pairs| ==> out.log[i] == RenamingNotice(pairs[i])
    ensures FreshTemps(fs, pairs, out.staging)
    ensures AsProgress(out) == RenameWithTemps(fs, pairs, out.staging)
    ensures out.status == Completed <==> ValidBatch(fs, pairs)
    ensures out.status == Completed ==> out.fs == Simultaneous(fs, pairs)
    ensures out.status == Completed ==>
      forall i :: 0 <= i < |out.staging| ==> out.staging[i] !in out.fs
    ensures out.status.Raised? ==>
      && out.status.index < |pairs|
      && ReadyBefore(fs, pairs, out.status.index)
      && !SourceReady(fs, pairs, out.status.index)
      && out.status.error == FileNotFound(pairs[out.status.index].source)
      && Staged(out.fs, fs, pairs, out.staging, out.status.index)
  {
    var temps, log := AllocateStaging(fs, pairs);
    RenameWithFreshTemps(fs, pairs, temps);
    var staged := RunPass(fs + EmptyFiles(temps), StageMoves(pairs, temps));
    var p := staged;
    if staged.Done? {
      p := RunPass(staged.fs, SettleMoves(pairs, temps));
    }
    out := match p
      case Done(f) => Outcome(f, log, temps, Completed)
      case Stopped(f, r) => Outcome(f, log, temps, Raised(r.index, r.error));
  }

  /** One pass: the calls of `moves` in order, stopping at the first that raises. */
  method RunPass(start: FS, moves: seq<Move>) returns (p: Progress)
    ensures p == ReplaceEach(start, moves, |moves|)
  {
    var cur := start;
    var i := 0;
    while i < |moves|
      invariant 0 <= i <= |moves|
      invariant ReplaceEach(start, moves, i) == Done(cur)
    {
      match Replace(cur, moves[i].from, moves[i].to)
      case Err(e) =>
        p := Stopped(cur, Raise(i, e));
        assert ReplaceEach(start, moves, i + 1) == p;
        StoppedRunStays(start, moves, i + 1);
        return;
      case Ok(next) =>
        cur := next;
        i := i + 1;
    }
    p := Done(cur);
  }

  /** The first loop of a real run: one staging file per pair, each named
      outside the directory, the batch and the earlier staging names, and one
      announcement per pair. */
  method AllocateStaging(fs: FS, pairs: seq<Pair>) returns (temps: seq<Name>, log: seq<Message>)
    ensures FreshTemps(fs, pairs, temps)
    ensures |log| == |pairs|
    ensures forall i :: 0 <= i < |pairs| ==> log[i] == RenamingNotice(pairs[i])
  {
    var taken := fs.Keys + BatchNames(pairs);
    temps := [];
    var i := 0;
    while i < |pairs|
      invariant 0 <= i <= |pairs|
      invariant |temps| == i
      invariant Allocated(fs, pairs, temps, taken)
    {
      var t := FreshName(taken);
      AllocatedExtend(fs, pairs, temps, taken, t);
      temps := temps + [t];
      taken := taken + {t};
      i := i + 1;
    }
    AllocatedComplete(fs, pairs, temps, taken);
    log := seq(|pairs|, i requires 0 <= i < |pairs| => RenamingNotice(pairs[i]));
  }

  /** The staging names allocated so far: each is recorded in `taken`, which
      also holds every existing file and every name of the batch, and they are
      pairwise distinct. */
  predicate Allocated(fs: FS, pairs: seq<Pair>, temps: seq<Name>, taken: set<Name>) {
    && fs.Keys + BatchNames(pairs) <= taken
    && (forall j :: 0 <= j < |temps| ==>
          temps[j] in taken && temps[j] !in fs && temps[j] !in BatchNames(pairs))
    && (forall j, l :: 0 <= j < l < |temps| ==> temps[j] != temps[l])
  }

  /** A name outside `taken` can be allocated next. */
  lemma AllocatedExtend(fs: FS, pairs: seq<Pair>, temps: seq<Name>, taken: set<Name>, t: Name)
    requires Allocated(fs, pairs, temps, taken)
    requires t !in taken
    ensures Allocated(fs, pairs, temps + [t], taken + {t})
  {
  }

  /** One allocated name per pair is a set of fresh staging names. */
  lemma AllocatedComplete(fs: FS, pairs: seq<Pair>, temps: seq<Name>, taken: set<Name>)
    requires Allocated(fs, pairs, temps, taken)
    requires |temps| == |pairs|
    ensures FreshTemps(fs, pairs, temps)
  {
  }
}

=== FILE: sheet.dfy ===
/**
 The rows the spreadsheet returns and the filter `getRenameList` applies to
 them before handing the batch to the renamer: a row is a list of cell
 values, and only rows of exactly two cells (source, destination) are kept.
 */
module SheetRows {
  import opened FileSystem
  import opened RenamePlan

  /** One spreadsheet row: its cell values, trailing empty cells omitted. */
  type Row = seq<string>

  /** The rows of `rows` that satisfy `keep`, in their original order. */
  function Filter(rows: seq<Row>, keep: Row -> bool): (kept: seq<Row>)
    ensures |kept| <= |rows|
    ensures forall r :: r in kept <==> r in rows && keep(r)
  {
    if rows == [] then []
    else (if keep(rows[0]) then [rows[0]] else []) + Filter(rows[1..], keep)
  }

  /** Filtering a concatenation filters each part: the filter keeps the order
      of the rows it keeps and looks at each row on its own. */
  lemma {:induction false} FilterAppend(a: seq<Row>, b: seq<Row>, keep: Row -> bool)
    ensures Filter(a + b, keep) == Filter(a, keep) + Filter(b, keep)
  {
    if a == [] {
      assert a + b == b;
    } else {
      assert (a + b)[0] == a[0];
      assert (a + b)[1..] == a[1..] + b;
      FilterAppend(a[1..], b, keep);
    }
  }

  /** Filtering twice with the same test keeps the same rows as filtering once. */
  lemma {:induction false} FilterIdempotent(rows: seq<Row>, keep: Row -> bool)
    ensures Filter(Filter(rows, keep), keep) == Filter(rows, keep)
  {
    if rows != [] {
      FilterIdempotent(rows[1..], keep);
      var head := if keep(rows[0]) then [rows[0]] else [];
      FilterAppend(head, Filter(rows[1..], keep), keep);
      if keep(rows[0]) {
        assert head[1..] == [];
      }
    }
  }

  /** A filter that every row passes keeps everything. */
  lemma {:induction false} FilterKeepsAll(rows: seq<Row>, keep: Row -> bool)
    requires forall i :: 0 <= i < |rows| ==> keep(rows[i])
    ensures Filter(rows, keep) == rows
  {
    if rows != [] {
      FilterKeepsAll(rows[1..], keep);
    }
  }

  predicate TwoCells(r: Row) {
    |r| == 2
  }

  /** The filter of `getRenameList`: the rows with exactly two cells. */
  function TwoCellRows(rows: seq<Row>): (kept: seq<Row>)
    ensures |kept| <= |rows|
    ensures forall r :: r in kept <==> r in rows && |r| == 2
  {
    Filter(rows, TwoCells)
  }

  /** A two-cell row whose cells are both filled in. */
  predicate Populated(r: Row) {
    |r| == 2 && r[0] != "" && r[1] != ""
  }

  /** The rows the docstring of `getRenameList` promises to return: two cells,
      neither of them empty. */
  function PopulatedRows(rows: seq<Row>): (kept: seq<Row>)
    ensures |kept| <= |rows|
    ensures forall r :: r in kept <==> r in rows && |r| == 2 && r[0] != "" && r[1] != ""
  {
    Filter(rows, Populated)
  }

  /** The filter the docstring describes is the two-cell filter followed by a
      check that both cells are filled in. */
  lemma {:induction false} FilterBoth(rows: seq<Row>)
    ensures Filter(rows, Populated) == Filter(Filter(rows, TwoCells), Populated)
  {
    if rows != [] {
      FilterBoth(rows[1..]);
      var head := if TwoCells(rows[0]) then [rows[0]] else [];
      FilterAppend(head, Filter(rows[1..], TwoCells), Populated);
    }
  }

  /** On a sheet where no two-cell row has an empty cell, both filters keep
      the same rows. */
  lemma {:induction false} FilterSame(rows: seq<Row>)
    requires forall i :: 0 <= i < |rows| ==> |rows[i]| == 2 ==> rows[i][0] != "" && rows[i][1] != ""
    ensures Filter(rows, Populated) == Filter(rows, TwoCells)
  {
    if rows != [] {
      FilterSame(rows[1..]);
    }
  }

  /** A row with an empty source cell has two cells, so `getRenameList`
      returns it, although its docstring says such rows are ignored: the
      renamer is handed strictly more pairs than the docstring promises, one
      of them asking to move the file named "". */
  lemma EmptySourceRowKept(rows: seq<Row>, d: string)
    requires ["", d] in rows
    ensures ["", d] in TwoCellRows(rows) && ["", d] !in PopulatedRows(rows)
    ensures |PopulatedRows(rows)| < |TwoCellRows(rows)|
  {
    FilterBoth(rows);
    FilterDropsOne(TwoCellRows(rows), Populated, ["", d]);
  }

  /** A filter that rejects some row of its input returns fewer rows. */
  lemma {:induction false} FilterDropsOne(rows: seq<Row>, keep: Row -> bool, r: Row)
    requires r in rows && !keep(r)
    ensures |Filter(rows, keep)| < |rows|
  {
    if rows[0] != r {
      FilterDropsOne(rows[1..], keep, r);
    }
  }

  /** One pair per two-cell row, source from the first cell and destination
      from the second, in row order. */
  function PairsOf(kept: seq<Row>): (pairs: seq<Pair>)
    requires forall i :: 0 <= i < |kept| ==> |kept[i]| == 2
    ensures |pairs| == |kept|
    ensures forall i :: 0 <= i < |pairs| ==> pairs[i] == Pair(kept[i][0], kept[i][1])
  {
    seq(|kept|, i requires 0 <= i < |kept| => Pair(kept[i][0], kept[i][1]))
  }

  /** A pair comes out of `PairsOf` exactly when its two names form one of
      the rows handed in. */
  lemma PairsOfMembers(kept: seq<Row>)
    requires forall i :: 0 <= i < |kept| ==> |kept[i]| == 2
    ensures forall p :: p in PairsOf(kept) <==> [p.source, p.destination] in kept
  {
    var pairs := PairsOf(kept);
    forall p | p in pairs
      ensures [p.source, p.destination] in kept
    {
      var i :| 0 <= i < |pairs| && pairs[i] == p;
      assert kept[i] == [kept[i][0], kept[i][1]];
    }
    forall p: Pair | [p.source, p.destination] in kept
      ensures p in pairs
    {
      var i :| 0 <= i < |kept| && kept[i] == [p.source, p.destination];
      assert pairs[i] == p;
    }
  }

  /** The batch the docstring of `getRenameList` promises: one pair per
      populated row, in row order, so every pair names a source and a
      destination, and a pair is in the batch exactly when the sheet has a
      row of those two filled-in cells. */
  function RenameList(rows: seq<Row>): (pairs: seq<Pair>)
    ensures |pairs| == |PopulatedRows(rows)|
    ensures forall i :: 0 <= i < |pairs| ==>
      pairs[i] == Pair(PopulatedRows(rows)[i][0], PopulatedRows(rows)[i][1])
    ensures forall i :: 0 <= i < |pairs| ==> pairs[i].source != "" && pairs[i].destination != ""
    ensures forall p {:trigger p in pairs} :: p in pairs <==>
      [p.source, p.destination] in rows && p.source != "" && p.destination != ""
  {
    var kept := PopulatedRows(rows);
    PairsOfMembers(kept);
    PairsOf(kept)
  }

  /** The batch the code hands to `renameFiles`: one pair per two-cell row,
      in row order, so a pair is in the batch exactly when the sheet has a
      row of those two cells, filled in or not. */
  function RenameListAsWritten(rows: seq<Row>): (pairs: seq<Pair>)
    ensures |pairs| == |TwoCellRows(rows)|
    ensures forall i :: 0 <= i < |pairs| ==>
      pairs[i] == Pair(TwoCellRows(rows)[i][0], TwoCellRows(rows)[i][1])
    ensures forall p {:trigger p in pairs} :: p in pairs <==> [p.source, p.destination] in rows
  {
    var kept := TwoCellRows(rows);
    PairsOfMembers(kept);
    PairsOf(kept)
  }

  /** A sheet row with an empty source cell reaches the renamer as a pair
      asking to move the file named "", a pair the promised batch does not
      hold, and the batch handed over is longer than the promised one. */
  lemma EmptySourcePairBuilt(rows: seq<Row>, d: string)
    requires ["", d] in rows
    ensures Pair("", d) in RenameListAsWritten(rows) && Pair("", d) !in RenameList(rows)
    ensures |RenameList(rows)| < |RenameListAsWritten(rows)|
  {
    EmptySourceRowKept(rows, d);
  }

  /** No file is named "", so a sheet row with an empty source cell makes the
      batch the code builds invalid: that pair's source does not exist. */
  lemma EmptySourceBatchInvalid(fs: FS, rows: seq<Row>, d: string)
    requires "" !in fs && ["", d] in rows
    ensures exists i :: 0 <= i < |RenameListAsWritten(rows)| && RenameListAsWritten(rows)[i].source == ""
    ensures !ValidBatch(fs, RenameListAsWritten(rows))
  {
    var pairs := RenameListAsWritten(rows);
    assert Pair("", d) in pairs;
    var i :| 0 <= i < |pairs| && pairs[i] == Pair("", d);
    assert pairs[i].source !in fs;
  }

  /** On a sheet where no two-cell row has an empty cell, the batch the code
      builds is the batch the docstring promises. */
  lemma AsWrittenAgrees(rows: seq<Row>)
    requires forall i :: 0 <= i < |rows| ==> |rows[i]| == 2 ==> rows[i][0] != "" && rows[i][1] != ""
    ensures RenameListAsWritten(rows) == RenameList(rows)
  {
    FilterSame(rows);
  }
}
